=== FILE: README.md ===
# Chart-request validation for the CSV visualisation apps

This project is a Dafny model of the request logic in two CSV-to-chart web apps.

- **The Flask JSON API** (`backend/app.py`) has these parts:
  - the `allowed_file` upload gate;
  - the in-memory `uploaded_data` registry and its `name_<n>` dataset ids;
  - the pagination of `/api/data/<id>`;
  - the ordered decision table of `/api/visualize`. That table resolves the dataset, requires an x axis, checks that every named column exists, and then applies the per-chart-type rules.
- **The Dash dashboard** (`app.py`) has these parts:
  - the file-name gate of `parse_contents`;
  - the `update_dashboard` callback. The callback offers date and value columns by dtype and pre-selects the first of each. It filters rows by an inclusive date range, counts the KPI cards and picks a chart.

A DataFrame is modelled as an ordered sequence of named, typed columns plus rows of abstract cells (`Frame`). Request fields are modelled as `Field = Absent | Null | Given(s)`. Python truthiness of a column name is "a non-empty string". Each handler is a pure function that returns a `Result` whose error cases follow the source's early returns in source order. Some work is done by libraries: pandas CSV parsing, Werkzeug's `secure_filename` and the Flask query-string parsing. Their outcomes enter the model as inputs or as a function parameter.

Modules:
- `Wrappers`: `Option` and `Result`.
- `Text`: the Python string operations used. These are `rsplit`, `lower`, `str(n)`, `in` on strings and `title`.
- `Frame`: dtypes, cells, columns and rows.
- `Backend`: `backend/app.py`.
- `Dashboard`: `app.py`.

Points where the code's behaviour is easy to misread:
- The default title `f'{chart_type.title()} Chart'` is evaluated on every request, before the dataset lookup. A `chart_type` of JSON `null` therefore fails with a 500 error (`ChartTypeNotText`) before "Dataset not found" can be reported. An absent `chart_type` means `scatter`.
- The box chart always needs x. When y is absent, x is plotted as the value axis. A request that gives only y is refused with "X-axis column is required".
- `parse_contents` tests whether the substring `csv` occurs anywhere in the name, and that test is case sensitive. So it is not simply looser than `allowed_file`, and neither gate implies the other: see `Dashboard.SubstringGateIsLooser` and `Dashboard.SubstringGateIsCaseSensitive`.
- `pd.read_csv` is called without `parse_dates`, so an uploaded CSV never has a datetime column. The dashboard's date filter therefore never removes a row on uploaded data (`Dashboard.CsvTablesAreNeverFiltered`).
- Pagination follows Python slicing. A negative offset counts from the end of the rows.
- The upload and data responses both carry `df.isnull().sum().sum()`, a numpy `int64` that Flask's JSON encoder refuses. As written, an accepted upload is stored and then answered with a 500 error, and every known dataset id is answered with a 500 error by `/api/data/<id>` (see Findings). `Backend.Upload` and `Backend.GetData` model the intended responses.
- The model follows Flask 2.1 and later: `request.get_json()` raises when the content type is not JSON or the text is not valid JSON, and the handler answers 500 (`Backend.BodyNotJson`). Of the bodies the model covers, only JSON `null` and the empty object get "No data provided".

## Model

| member | source | states |
|---|---|---|
| Text.AfterLast | backend/app.py:83 | `rsplit(c, 1)[1]` is the longest suffix free of `c`, and it is preceded by `c` whenever `c` occurs |
| Text.AfterLastOfJoin | backend/app.py:83 | splitting `a + c + b` at its last `c` returns `b` when `b` has no `c` |
| Text.Lower | backend/app.py:83 | `lower()` keeps the length and lower-cases every character independently |
| Text.Decimal | backend/app.py:130 | `str(n)` is a non-empty run of digits with no leading zero; it starts with '0' exactly for 0 |
| Text.ParseDecimal | backend/app.py:130 | reading a numeral succeeds exactly on a non-empty all-digit text |
| Text.DecimalRoundTrip | backend/app.py:130 | reading back `str(n)` gives `n` |
| Text.ContainsIff | app.py:99 | Python's `'csv' in filename` holds exactly when `csv` occurs at some position |
| Text.TitleFrom | backend/app.py:207 | `str.title()` from a given cased/uncased state: the same letters, upper case exactly at the start of each run of letters, other characters unchanged |
| Text.Title | backend/app.py:207 | `chart_type.title()`: the first letter of each run of letters is upper case, the rest are lower case, and other characters are unchanged |
| Text.TitleOfLowerWord | backend/app.py:207 | a lower-case word such as `scatter` title-cases to `Scatter` |
| Frame.ColumnIndex | app.py:157 | `df[name]` finds the first column with that name, and fails exactly when no column has it |
| Frame.ColumnIndexFindsListedNames | backend/app.py:218 | a lookup succeeds exactly for the names `df.columns` lists |
| Frame.RowMissing | app.py:178 | the missing cells of a row are at most the row's length |
| Frame.MissingCountZero | app.py:178 | the missing-values KPI is zero exactly when no cell is missing |
| Frame.RowMissingZero | app.py:178 | a row counts no missing cell exactly when none is missing |
| Backend.AllowedFileIff | backend/app.py:82-83 | `allowed_file(f)` holds iff `f` ends in '.' followed by three characters that lower-case to `csv` |
| Backend.UpperCaseExtensionAllowed | backend/app.py:82-83 | `x.CSV` and `report.v2.csv` are accepted |
| Backend.ForeignNamesRefused | backend/app.py:82-83 | `csv` (no dot) and `a.csv.txt` are refused |
| Backend.IdNumberOfDatasetId | backend/app.py:130 | the number in `name_<n>` is read back as `n` from the text after the last '_', whatever the sanitised name is |
| Backend.Upload | backend/app.py:114-133 | the error checks fire in order (no file, empty name, bad extension, unreadable content); a failed upload leaves the registry unchanged; a success uses the id `secure_filename(name) + '_' + str(len(uploaded_data))`, adds exactly that id, stores the parsed table there and keeps every other entry |
| Backend.UploadAsWritten | backend/app.py:130-152 | as written every request fails: the registry changes exactly as for `Upload`, and a request `Upload` accepts is answered with the encoding error |
| Backend.FailedUploadStillStores | backend/app.py:133-152 | as written, an accepted file is answered with an error although the registry grew by one entry |
| Backend.UploadNeverOverwrites | backend/app.py:130-133 | on a registry built by uploads, the new id is fresh, the registry grows by exactly one entry and the id invariant is kept |
| Backend.SessionKeepsEveryUpload | backend/app.py:130-133 | over a whole session, the registry holds one entry per accepted upload |
| Backend.EmptyRegistryWellKeyed | backend/app.py:86 | the initial empty registry satisfies the id invariant |
| Backend.SliceBound | backend/app.py:168 | a slice bound is normalised into `[0, len]` and left alone when already inside it |
| Backend.PySlice | backend/app.py:168 | `iloc[start:stop]` never returns more rows than the table has |
| Backend.GetData | backend/app.py:154-179 | unknown ids fail; otherwise the page reports the total, the columns and the defaulted offset and limit (0 and 100), and returns only rows of the dataset |
| Backend.GetDataAsWritten | backend/app.py:158-191 | as written every request fails: "not found" exactly for unknown ids, and the encoding error exactly when `GetData` would serve a page |
| Backend.StoredDatasetUnreadableAsWritten | backend/app.py:170-191 | as written, the first page of a stored dataset `d_0` is refused although `GetData` serves it |
| Backend.PageWindow | backend/app.py:164-179 | for non-negative offset and limit, the data is the rows from `offset` up to `min(offset+limit, total)`; `has_more` holds iff `offset+limit < total`; a page with more after it is full; a page without more reaches the end |
| Backend.DefaultPage | backend/app.py:164-168 | with no query arguments the page is the first 100 rows, and `has_more` holds iff there are more than 100 |
| Backend.PagesTile | backend/app.py:168 | two consecutive pages equal one page of twice the limit, so paging by `offset += limit` neither skips nor repeats a row |
| Backend.NegativeOffsetReadsTail | backend/app.py:165-179 | offset -1 on ten rows returns the last row, with `has_more` false |
| Backend.Dispatch | backend/app.py:230-255 | a chart is drawn iff its type is one of the five and, for scatter, line and bar, a y axis is given; the Plotly Express call made is the one that type names; unknown types and a missing y get their own errors |
| Backend.Visualize | backend/app.py:197-276 | the check order is an unreadable body, then no data, then a null chart type, then an unknown dataset, then a missing x, then a missing column (always one that was named and is absent); a success echoes the requested chart type (`scatter` when absent), draws the Plotly Express call of that type, has x among the columns, and 1 to 3 non-empty columns used, all present and starting with x |
| Backend.VisualizeSucceedsIffDrawable | backend/app.py:209-255 | a request succeeds exactly when it satisfies the declarative rule table (dataset exists, every named column exists, a known type, y present for scatter, line and bar) |
| Backend.VisualizeStatus | backend/app.py:197-282 | a refusal is answered 500 exactly when the body is unreadable or `chart_type` is null, 404 exactly when the dataset is unknown, and 400 in every other case |
| Backend.MissingXAxisWins | backend/app.py:212-213 | a missing x axis is reported before any column-existence or chart-type check |
| Backend.BadColumnBeatsChartType | backend/app.py:218-225 | a named absent column is reported whatever the chart type, even an unsupported one |
| Backend.TwoAxisCharts | backend/app.py:230-243 | scatter, line and bar without y are refused, and with a valid x and y they draw (x, y) |
| Backend.HistogramIgnoresY | backend/app.py:221-222 | a histogram with existing columns draws x (and color) only, never y |
| Backend.BoxSwapsAxes | backend/app.py:248-252 | a box plot draws (x, y) when y is given, otherwise x on the value axis |
| Backend.MissingChartTypeIsScatter | backend/app.py:203-207 | an absent `chart_type` draws a scatter plot titled "Scatter Chart" |
| Backend.ColumnsUsedOrder | backend/app.py:276 | `columns_used` is x, y, color in that order, with the entries not given dropped |
| Dashboard.ParseContents | app.py:95-105 | a table is returned iff the name contains `csv` and pandas read it; names without `csv` get exactly "Unsupported file type."; read errors are reported as "Error: ..." |
| Dashboard.SubstringGateIsLooser | app.py:99-102 | `notes_csv.txt` passes the dashboard's gate but not `allowed_file` |
| Dashboard.SubstringGateIsCaseSensitive | app.py:99-102 | `x.CSV` passes `allowed_file` but not the dashboard's gate |
| Dashboard.LowerCaseCsvPassesBoth | app.py:99 | a name ending in `.csv` passes both gates |
| Dashboard.Options | app.py:151-152 | every offered name is the name of a column of the requested dtype family |
| Dashboard.OptionsComplete | app.py:151-152 | every column of the family is offered |
| Dashboard.OptionsInColumnOrder | app.py:151-152 | the options keep the table's column order |
| Dashboard.FirstFit | app.py:154-155 | the first column of a dtype family is the smallest such index, or none when no column has that family |
| Dashboard.DefaultIsFirstFit | app.py:154-155 | the auto-selected value is the first column of its family, or `None` when there is none |
| Dashboard.KeepInWindow | app.py:159-160 | the mask keeps only rows of the table whose stamp lies in [start, end] |
| Dashboard.KeepInWindowComplete | app.py:159-160 | every row whose stamp lies in the window is kept |
| Dashboard.KeepInWindowInOrder | app.py:159-160 | the kept rows keep their original order |
| Dashboard.KeepInWindowCounts | app.py:159-160 | each row occurs in the result as often as in the input when it lies in the window, and not at all otherwise |
| Dashboard.KeepInWindowKeepsAll | app.py:159-160 | nothing is dropped exactly when every row lies in the window |
| Dashboard.DateFilter | app.py:157-160 | an unknown chosen date column raises `KeyError`; columns are never changed; rows are only removed; without a datetime column and both bounds the table is untouched; when applied, every kept row is in the window |
| Dashboard.FilterKeepsExactlyTheWindow | app.py:157-160 | when the filter applies, it keeps exactly the in-window rows, in order, with every copy of a repeated in-window row and no copy of any other row |
| Dashboard.CsvTablesAreNeverFiltered | app.py:100-160 | a table of numeric, boolean and object columns (what `read_csv` yields) is never filtered |
| Dashboard.ChooseChart | app.py:189-197 | line and bar need both the date and value columns and plot (date, value); pie and heatmap need only the value column and use the date column or else the first column as the category; otherwise there is no chart |
| Dashboard.Render | app.py:150-209 | after parsing, a missing date column is reported first and the chart choice second; on success the chart is the one `ChooseChart` picks for the table's columns; the row and missing-value KPIs count the date-filtered rows; the column KPI equals the table's column count; the preview shows the table's columns and the first `min(100, n)` filtered rows; the info reads "Loaded: name" |
| Dashboard.Update | app.py:144-149 | no upload gives all-empty outputs; a parse error gives the message with empty options and no selection; the callback never stops for lack of a figure |
| Dashboard.UpdateAsWritten | app.py:189-199 | the callback as written stops with `AttributeError` exactly when a table was parsed but no chart was chosen, and otherwise behaves like `Update` |
| Dashboard.RenderedOptions | app.py:151-155 | the date and value options are exactly the columns of each family, in column order, and each pre-selection is the first of them |
| Dashboard.AsWrittenAgreesWhenCharted | app.py:189-199 | whenever a chart is drawn, or the callback returns early, the as-written and corrected callbacks agree |
| Dashboard.FirstUploadFailsAsWritten | app.py:189-199 | the first upload, with both dropdowns unset and the default line chart, fails as written; the corrected callback pre-selects `date` and `sales` |

## Findings

| source | as written | input that shows it | evidently intended | confidence | as-written member | corrected member |
|---|---|---|---|---|---|---|
| backend/app.py:138-152 | the success response includes `'missing_values': df.isnull().sum().sum()`, a numpy `int64`; `jsonify` raises `TypeError` on it, the `except` answers 500, and the table stored at line 133 stays stored | any accepted upload, e.g. `data.csv` with one row: the client gets "Error processing file: Object of type int64 is not JSON serializable" while `data.csv_0` is in the registry | convert the count to a Python `int` and answer 200 with the dataset info | not executed; medium (holds for Flask's default JSON provider, which has no numpy support) | Backend.UploadAsWritten (`Backend.FailedUploadStillStores` exhibits the input) | Backend.Upload (`Backend.UploadNeverOverwrites` proves what a success adds) |
| backend/app.py:170-191 | `summary.missing_values` is the same numpy `int64`, so `jsonify` raises for every dataset that exists | `GET /api/data/d_0` right after `d_0` was stored: 500 "Error retrieving data: ..." | answer the page with a Python `int` count | not executed; medium (same reason) | Backend.GetDataAsWritten (`Backend.StoredDatasetUnreadableAsWritten` exhibits the input) | Backend.GetData (`Backend.PageWindow` proves the page served) |
| app.py:189-199 | `fig = {}` and then, if no branch picks a chart, `fig.update_traces(...)` is called on a plain dict, which raises `AttributeError` | the first upload of any CSV: the date and value dropdowns are still `None`, so with the default "line" chart no chart is chosen, and none of the eight outputs update, including the dropdown options the user needs | render an empty figure and still return the options, pre-selections, KPIs and table | not executed; high | Dashboard.UpdateAsWritten (`Dashboard.FirstUploadFailsAsWritten` exhibits the input) | Dashboard.Update (`Dashboard.AsWrittenAgreesWhenCharted` shows it changes only that case) |

## Left out

- CSV parsing (`pd.read_csv`), UTF-8 decoding and splitting and base64-decoding the data URL are library work. Their outcome is an input: a table, or a failure. A malformed data URL raises before the file-name check in `parse_contents`; that is not modelled.
- Werkzeug's `secure_filename` is a function parameter of `Backend.Upload`. Freshness is proved for every sanitiser.
- Flask routing, CORS, the JSON responses, the error handlers and the query-string integer parsing are not modelled. An absent or non-integer `limit`/`offset` arrives as `None`. The HTTP status is modelled for `/api/visualize` only (`Backend.Status`); for uploads and data reads the error kinds map to the source's codes by name.
- JSON values other than strings and `null` in the request object are not modelled. In the source they behave as follows.
  - `chart_type`: any value that is not a string or `null` has no `.title()`, so line 207 raises and the answer is 500.
  - `dataset_id`: a number or boolean is answered 404 at line 209. A list or object, even an empty one, cannot be hashed, so the lookup raises and the answer is 500.
  - `x_axis`: `0`, `false`, `[]` and `{}` are false to Python, so line 212 answers 400 "X-axis column is required". A non-zero number is answered 400 "Column 5 not found in dataset" at line 218. A non-empty list or object cannot be hashed by the column lookup, which raises and is answered 500.
  - `y_axis` and `color`: a value Python treats as false skips the checks at lines 221 and 224. A `y_axis` like that then counts as absent: scatter, line and bar get 400 "Y-axis is required" (lines 231, 236, 241), and histogram and box draw without it. A `color` like that is passed on to Plotly Express unchanged, and what Plotly does with it is not modelled. A non-zero number gets 400 "Column … not found in dataset". A non-empty list or object raises in the lookup and is answered 500.
- JSON bodies that are not objects and not `null` are not modelled. `false`, `0`, `""` and `[]` get "No data provided"; other arrays, numbers and strings make `data.get` raise, and the handler answers 500.
- Flask before 2.1 returned `None` from `get_json()` when the content type was not JSON, so the answer there was 400 "No data provided". The model follows 2.1 and later, where it is the 500 of `Backend.BodyNotJson`.
- Backend.UploadNeverOverwrites and Backend.SessionKeepsEveryUpload hold for uploads handled one after another. The development server handles requests in threads, so two uploads can both read `len(uploaded_data)` at line 130 before either stores at line 133, get the same id, and the second overwrites the first. Concurrent requests are not modelled.
- Plotly figure construction and JSON encoding are not modelled: the model stops at which columns feed which role. Plotly's own refusal of a column name the table lacks is not modelled either; the two cases where this matters are listed below.
- Backend.Visualize reports success for a `color` of `""`. The source passes that empty string on to Plotly Express, which refuses it as a column name, so the handler answers 500.
- Backend.VisualizeSucceedsIffDrawable counts a request with `color` `""` as drawable, for the same reason; in the source that request is answered 500.
- Dashboard.Render, Dashboard.Update and Dashboard.UpdateAsWritten report a drawn chart even when the selected value column is not a column of the table. This happens when a `sales` selection is kept from an earlier upload and the new table has only `date` and `amount`: `ChooseChart` picks `LineChart("date", "sales")`. In the source, `px.line`, `px.bar`, `px.pie` or `px.density_heatmap` (lines 190-197) raises `ValueError` for the unknown column, and the callback stops. A stale date column is modelled: `DateFilter` reports it as `KeyMissing`.
- `Backend.Visualize`: the 500 "Failed to create visualization" branch (line 257) is not modelled. Every branch that reaches it has already assigned a figure.
- Statistics and listing endpoints (`get_statistics`, `list_datasets`, `home`), memory-usage figures and `describe`/`nunique`/`value_counts` are not modelled: they are library numerics and float formatting.
- The "Date Range" KPI text (`min()` and `max()` of the column) is not modelled. The model records only which column the card reports.
- Dash layout, theme switching and the CSV and PNG downloads are not modelled.
- Timezone-aware datetime columns are not modelled. `select_dtypes(['datetime'])` and `is_datetime64_any_dtype` disagree on them.
- Duplicate column names are not modelled: `read_csv` renames duplicates.
- `Text.Lower` and `Text.Title` map case on ASCII letters only. No other character lower-cases to `c`, `s` or `v`, so `allowed_file` is unaffected.
- `launcher.py` (virtualenv creation, installs, subprocesses) and `backend/config.py` (environment configuration) are process plumbing with nothing to state.
- Column-kind inference by date-parse fraction, time-series resampling, aggregation, pair plots and correlation heatmaps do not occur in this code.

=== FILE: backend.dfy ===
/** The Flask JSON API (backend/app.py): the upload gate and the in-memory
    dataset registry, paginated reads, and the ordered validation table of
    the visualisation endpoint. Request parsing, CSV parsing and figure
    building are done by libraries; their outcomes arrive here as inputs. */
module Backend {
  import opened Wrappers
  import opened Text
  import opened Frame

  // =====================================================================
  // allowed_file

  const AllowedExtensions: set<string> := {"csv"}

  /** `allowed_file`: the name has a '.' and the text after the last '.',
      lower-cased, is an allowed extension. */
  predicate AllowedFile(filename: string) {
    '.' in filename && Lower(AfterLast(filename, '.')) in AllowedExtensions
  }

  /** The same gate read without splitting: the name ends in '.' followed by
      three characters that lower-case to "csv". */
  lemma AllowedFileIff(filename: string)
    ensures AllowedFile(filename) <==>
      |filename| >= 4 && filename[|filename| - 4] == '.' && Lower(filename[|filename| - 3..]) == "csv"
  {
    var n := |filename|;
    if AllowedFile(filename) {
      var ext := AfterLast(filename, '.');
      assert Lower(ext) == "csv";
      assert |ext| == 3;
    }
    if n >= 4 && filename[n - 4] == '.' && Lower(filename[n - 3..]) == "csv" {
      var ext := filename[n - 3..];
      assert forall i :: 0 <= i < 3 ==> ext[i] != '.' by {
        forall i | 0 <= i < 3
          ensures ext[i] != '.'
        {
          assert LowerChar(ext[i]) == "csv"[i];
        }
      }
      assert filename == filename[..n - 4] + ['.'] + ext;
      AfterLastOfJoin(filename[..n - 4], '.', ext);
    }
  }

  /** Upper-case extensions pass. */
  lemma UpperCaseExtensionAllowed()
    ensures AllowedFile("x.CSV")
    ensures AllowedFile("report.v2.csv")
  {
    AllowedFileIff("x.CSV");
    assert "x.CSV"[2..] == "CSV";
    assert Lower("CSV") == "csv" by {
      assert Lower("CSV")[0] == 'c' && Lower("CSV")[1] == 's' && Lower("CSV")[2] == 'v';
    }
    AllowedFileIff("report.v2.csv");
    assert "report.v2.csv"[10..] == "csv";
    assert Lower("csv") == "csv" by {
      assert Lower("csv")[0] == 'c' && Lower("csv")[1] == 's' && Lower("csv")[2] == 'v';
    }
  }

  /** A bare "csv" (no '.') and a trailing foreign extension are refused. */
  lemma ForeignNamesRefused()
    ensures !AllowedFile("csv")
    ensures !AllowedFile("a.csv.txt")
  {
    assert '.' !in "csv" by {
      assert forall i :: 0 <= i < 3 ==> "csv"[i] != '.';
    }
    AllowedFileIff("a.csv.txt");
    assert "a.csv.txt"[6..] == "txt";
    assert Lower("txt")[0] == 't';
  }

  // =====================================================================
  // upload_file: dataset ids and the registry

  /** The module-level `uploaded_data` dictionary. */
  type Registry = map<string, Table>

  /** `secure_filename(name) + '_' + str(n)`. */
  function DatasetId(stem: string, n: nat): string {
    stem + "_" + Decimal(n)
  }

  /** The number written after the last '_' of an id, if that text is a
      numeral. */
  function IdNumber(id: string): Option<nat> {
    ParseDecimal(AfterLast(id, '_'))
  }

  /** The number an id was built from is read back from it, whatever the
      sanitised stem looks like (it may itself contain '_' and digits). */
  lemma IdNumberOfDatasetId(stem: string, n: nat)
    ensures IdNumber(DatasetId(stem, n)) == Some(n)
  {
    assert forall i :: 0 <= i < |Decimal(n)| ==> Decimal(n)[i] != '_' by {
      forall i | 0 <= i < |Decimal(n)|
        ensures Decimal(n)[i] != '_'
      {
        assert IsDigit(Decimal(n)[i]);
      }
    }
    assert DatasetId(stem, n) == stem + ['_'] + Decimal(n);
    AfterLastOfJoin(stem, '_', Decimal(n));
    DecimalRoundTrip(n);
  }

  /** The invariant the registry keeps: every id ends in '_' and a number
      smaller than the registry's size. It holds of the empty registry and
      every upload preserves it. */
  predicate WellKeyed(registry: Registry) {
    forall id :: id in registry ==> IdNumber(id).Some? && IdNumber(id).value < |registry|
  }

  /** A file part of a multipart request. `content` is what decoding the
      bytes as UTF-8 and `pd.read_csv` yield; `None` when either raises. */
  datatype FilePart = FilePart(filename: string, content: Option<Table>)

  datatype UploadError =
    | NoFileProvided
    | NoFileSelected
    | InvalidFileType
      /** Decoding or `pd.read_csv` raised. */
    | ProcessingFailed
      /** `jsonify` raised on the success response (see `UploadAsWritten`). */
    | ResponseUnencodable

  /** The fields of a successful upload response that the model tracks. */
  datatype UploadInfo = UploadInfo(datasetId: string, filename: string, rows: nat, columns: seq<string>)

  /** The registry after the request, and the response. */
  datatype UploadOutcome = UploadOutcome(registry: Registry, response: Result<UploadInfo, UploadError>)

  /** `upload_file`, with `secure_filename` as the parameter `sanitize`. */
  function Upload(registry: Registry, file: Option<FilePart>, sanitize: string -> string): (o: UploadOutcome)
    ensures file.None? ==> o.response == Failure(NoFileProvided)
    ensures file.Some? && file.value.filename == "" ==> o.response == Failure(NoFileSelected)
    ensures file.Some? && file.value.filename != "" && !AllowedFile(file.value.filename) ==>
      o.response == Failure(InvalidFileType)
    ensures file.Some? && AllowedFile(file.value.filename) && file.value.content.None? ==>
      o.response == Failure(ProcessingFailed)
    ensures o.response.Success? <==> file.Some? && AllowedFile(file.value.filename) && file.value.content.Some?
    ensures o.response.Failure? ==> o.registry == registry
    ensures o.response.Success? ==>
      && o.response.value.datasetId == DatasetId(sanitize(file.value.filename), |registry|)
      && o.response.value.datasetId in o.registry
      && o.registry[o.response.value.datasetId] == file.value.content.value
      && o.response.value.rows == |file.value.content.value.rows|
      && o.registry.Keys == registry.Keys + {o.response.value.datasetId}
      && forall id :: id in registry && id != o.response.value.datasetId ==> o.registry[id] == registry[id]
  {
    if file.None? then UploadOutcome(registry, Failure(NoFileProvided))
    else if file.value.filename == "" then UploadOutcome(registry, Failure(NoFileSelected))
    else if !AllowedFile(file.value.filename) then UploadOutcome(registry, Failure(InvalidFileType))
    else match file.value.content
      case None => UploadOutcome(registry, Failure(ProcessingFailed))
      case Some(t) =>
        var id := DatasetId(sanitize(file.value.filename), |registry|);
        UploadOutcome(registry[id := t],
          Success(UploadInfo(id, file.value.filename, |t.rows|, Names(t.columns))))
  }

  /** On a registry built by uploads, an upload never overwrites: the new id
      was not present, the registry grows by exactly one entry, and the
      invariant survives. */
  lemma UploadNeverOverwrites(registry: Registry, file: Option<FilePart>, sanitize: string -> string)
    requires WellKeyed(registry)
    ensures var o := Upload(registry, file, sanitize);
      && WellKeyed(o.registry)
      && (o.response.Success? ==>
            o.response.value.datasetId !in registry && |o.registry| == |registry| + 1)
  {
    var o := Upload(registry, file, sanitize);
    if o.response.Success? {
      var id := o.response.value.datasetId;
      IdNumberOfDatasetId(sanitize(file.value.filename), |registry|);
      assert id !in registry;
      assert |o.registry| == |registry| + 1;
      forall k | k in o.registry
        ensures IdNumber(k).Some? && IdNumber(k).value < |o.registry|
      {
        if k != id {
          assert k in registry;
        }
      }
    }
  }

  /** `upload_file` as the source has it. The success response includes
      `df.isnull().sum().sum()`, a numpy `int64`, which `jsonify` cannot
      encode; the `TypeError` is caught by the handler's `except` and answered
      with a 500, after line 133 has already stored the table. So every
      request that stores a dataset is reported as failed. */
  function UploadAsWritten(registry: Registry, file: Option<FilePart>, sanitize: string -> string): (o: UploadOutcome)
    ensures o.response.Failure?
    ensures o.registry == Upload(registry, file, sanitize).registry
    ensures Upload(registry, file, sanitize).response.Failure? ==> o == Upload(registry, file, sanitize)
  {
    var intended := Upload(registry, file, sanitize);
    if intended.response.Success? then UploadOutcome(intended.registry, Failure(ResponseUnencodable))
    else intended
  }

  /** As written, a request answered with an error can still have changed
      the registry: an accepted file is stored under a fresh id although the
      client is told the upload failed. `Upload` keeps the registry unchanged
      on every failure. */
  lemma FailedUploadStillStores(registry: Registry, file: Option<FilePart>, sanitize: string -> string)
    requires WellKeyed(registry)
    requires file.Some? && AllowedFile(file.value.filename) && file.value.content.Some?
    ensures var o := UploadAsWritten(registry, file, sanitize);
      o.response == Failure(ResponseUnencodable) && |o.registry| == |registry| + 1
  {
    UploadNeverOverwrites(registry, file, sanitize);
  }

  /** A session: the uploads in order, starting from the empty registry. */
  function UploadAll(registry: Registry, files: seq<Option<FilePart>>, sanitize: string -> string): Registry
    decreases |files|
  {
    if |files| == 0 then registry
    else UploadAll(Upload(registry, files[0], sanitize).registry, files[1..], sanitize)
  }

  /** Number of requests in a session that upload successfully. */
  function Accepted(files: seq<Option<FilePart>>): nat {
    if |files| == 0 then 0
    else
      var head := if files[0].Some? && AllowedFile(files[0].value.filename) && files[0].value.content.Some? then 1 else 0;
      head + Accepted(files[1..])
  }

  /** Over a whole session started from an empty registry, every accepted
      upload adds its own entry: the registry ends with exactly as many
      datasets as were accepted. */
  lemma {:induction false} SessionKeepsEveryUpload(registry: Registry, files: seq<Option<FilePart>>, sanitize: string -> string)
    requires WellKeyed(registry)
    ensures WellKeyed(UploadAll(registry, files, sanitize))
    ensures |UploadAll(registry, files, sanitize)| == |registry| + Accepted(files)
    decreases |files|
  {
    if |files| > 0 {
      UploadNeverOverwrites(registry, files[0], sanitize);
      SessionKeepsEveryUpload(Upload(registry, files[0], sanitize).registry, files[1..], sanitize);
    }
  }

  lemma EmptyRegistryWellKeyed()
    ensures WellKeyed(map[])
  {
  }

  // =====================================================================
  // get_data: pagination

  /** Python's normalisation of a slice bound against a length `n`. */
  function SliceBound(i: int, n: nat): (k: nat)
    ensures k <= n
    ensures 0 <= i <= n ==> k == i
  {
    if i < 0 then (if i + n < 0 then 0 else i + n)
    else if i > n then n
    else i
  }

  /** `s[start:stop]` with Python's rules for negative and out-of-range
      bounds (the semantics of `df.iloc[start:stop]`). */
  function PySlice<T>(s: seq<T>, start: int, stop: int): (r: seq<T>)
    ensures |r| <= |s|
  {
    var lo := SliceBound(start, |s|);
    var hi := SliceBound(stop, |s|);
    if lo <= hi then s[lo..hi] else []
  }

  const DefaultLimit: int := 100
  const DefaultOffset: int := 0

  datatype Pagination = Pagination(offset: int, limit: int, hasMore: bool)

  /** The fields of a `get_data` response that the model tracks. */
  datatype DataPage = DataPage(datasetId: string, totalRows: nat, columns: seq<string>,
                               data: seq<Row>, pagination: Pagination)

  datatype DataError =
    | DataNotFound
      /** `jsonify` raised on the response (see `GetDataAsWritten`). */
    | DataUnencodable

  /** `get_data`. A query argument that is absent or not an integer arrives
      as `None` and takes its default. */
  function GetData(registry: Registry, id: string, limitArg: Option<int>, offsetArg: Option<int>): (r: Result<DataPage, DataError>)
    ensures r.Failure? <==> id !in registry
    ensures r.Success? ==>
      && r.value.totalRows == |registry[id].rows|
      && r.value.columns == Names(registry[id].columns)
      && r.value.pagination.offset == offsetArg.GetOr(DefaultOffset)
      && r.value.pagination.limit == limitArg.GetOr(DefaultLimit)
      && |r.value.data| <= r.value.totalRows
      && forall row :: row in r.value.data ==> row in registry[id].rows
  {
    if id !in registry then Failure(DataNotFound)
    else
      var t := registry[id];
      var limit := limitArg.GetOr(DefaultLimit);
      var offset := offsetArg.GetOr(DefaultOffset);
      Success(DataPage(id, |t.rows|, Names(t.columns), PySlice(t.rows, offset, offset + limit),
                       Pagination(offset, limit, offset + limit < |t.rows|)))
  }

  /** `get_data` as the source has it. Its `summary.missing_values` is the
      numpy `int64` that `jsonify` cannot encode, so every known id is
      answered by the `except` branch with a 500 instead of a page. */
  function GetDataAsWritten(registry: Registry, id: string, limitArg: Option<int>, offsetArg: Option<int>): (r: Result<DataPage, DataError>)
    ensures r.Failure?
    ensures r.error == DataNotFound <==> id !in registry
    ensures r.error == DataUnencodable <==> GetData(registry, id, limitArg, offsetArg).Success?
  {
    match GetData(registry, id, limitArg, offsetArg)
    case Failure(e) => Failure(e)
    case Success(_) => Failure(DataUnencodable)
  }

  /** As written, a dataset just stored cannot be read back: the first page
      of "d_0" fails although `GetData` serves it. */
  lemma StoredDatasetUnreadableAsWritten(t: Table)
    ensures GetData(map["d_0" := t], "d_0", None, None).Success?
    ensures GetDataAsWritten(map["d_0" := t], "d_0", None, None) == Failure(DataUnencodable)
  {
  }

  /** With non-negative offset and limit the page is the window
      [offset, min(offset + limit, total)) of the rows, and `has_more` says
      exactly that rows lie beyond it. */
  lemma PageWindow(registry: Registry, id: string, limit: int, offset: int)
    requires id in registry && 0 <= offset && 0 <= limit
    ensures var page := GetData(registry, id, Some(limit), Some(offset)).value;
      var total := |registry[id].rows|;
      && page.data == registry[id].rows[Min(offset, total)..Min(offset + limit, total)]
      && (page.pagination.hasMore <==> offset + limit < total)
      && (page.pagination.hasMore ==> |page.data| == limit)
      && (!page.pagination.hasMore && offset <= total ==> offset + |page.data| == total)
  {
  }

  /** The default request reads the first hundred rows. */
  lemma DefaultPage(registry: Registry, id: string)
    requires id in registry
    ensures var page := GetData(registry, id, None, None).value;
      var rows := registry[id].rows;
      && page.data == rows[..Min(100, |rows|)]
      && (page.pagination.hasMore <==> |rows| > 100)
  {
    PageWindow(registry, id, 100, 0);
  }

  /** Two consecutive pages read the same rows as one page of twice the
      size: paging with `offset += limit` skips and repeats nothing. */
  lemma PagesTile<T>(s: seq<T>, offset: int, limit: int)
    requires 0 <= offset && 0 <= limit
    ensures PySlice(s, offset, offset + limit) + PySlice(s, offset + limit, offset + 2 * limit)
         == PySlice(s, offset, offset + 2 * limit)
  {
    var n := |s|;
    var a, b, c := Min(offset, n), Min(offset + limit, n), Min(offset + 2 * limit, n);
    assert s[a..b] + s[b..c] == s[a..c];
  }

  /** A negative offset counts from the end, as Python slicing does: with
      offset -1 on ten rows the default page is the last row, and `has_more`
      is false. */
  lemma NegativeOffsetReadsTail(rows: seq<Row>, columns: seq<Column>)
    requires |rows| == 10
    ensures var registry := map["d_0" := Table(columns, rows)];
      var page := GetData(registry, "d_0", None, Some(-1)).value;
      page.data == [rows[9]] && !page.pagination.hasMore
  {
  }

  // =====================================================================
  // create_visualization

  /** A member of the JSON object: absent, JSON `null`, or a string. */
  datatype Field = Absent | Null | Given(s: string)

  /** The value `data.get(key)` returns: `None` or the string. */
  function Value(f: Field): Option<string> {
    if f.Given? then Some(f.s) else None
  }

  /** Python truthiness of that value: a non-empty string. */
  predicate Truthy(f: Field) {
    f.Given? && f.s != ""
  }

  /** The members of the request object the endpoint reads; `otherKeys`
      records whether the object has any further member. */
  datatype VizRequest = VizRequest(datasetId: Field, chartType: Field, xAxis: Field, yAxis: Field,
                                   color: Field, title: Field, otherKeys: bool)

  /** The request body as Flask 2.1 and later read it: `get_json()` raises
      when the content type is not JSON or the text is not valid JSON
      (`Unreadable`); a body that is the JSON literal `null` yields `None`
      (`JsonNull`); otherwise it is an object. */
  datatype Body = Unreadable | JsonNull | Json(request: VizRequest)

  /** `not data`: a `null` body, or the empty object. */
  predicate EmptyBody(body: Body) {
    || body.JsonNull?
    || (body.Json? && var q := body.request;
        q.datasetId.Absent? && q.chartType.Absent? && q.xAxis.Absent? && q.yAxis.Absent?
        && q.color.Absent? && q.title.Absent? && !q.otherKeys)
  }

  datatype VizError =
      /** `get_json()` raised; the handler's `except` answers. */
    | BodyNotJson
    | NoDataProvided
      /** `chart_type` was JSON null, so computing the default title raised. */
    | ChartTypeNotText
    | DatasetNotFound
    | XAxisRequired
    | ColumnNotFound(column: string)
    | YAxisRequired(chartType: string)
    | UnsupportedChartType(chartType: string)

  /** The HTTP status each error is answered with. */
  function Status(e: VizError): int {
    match e
    case DatasetNotFound => 404
    case BodyNotJson => 500
    case ChartTypeNotText => 500
    case _ => 400
  }

  /** The Plotly Express call made: which columns feed which role.
      `color` is passed through as received. */
  datatype Plot =
    | Scatter(x: string, y: string, color: Option<string>)
    | LinePlot(x: string, y: string, color: Option<string>)
    | BarPlot(x: string, y: string, color: Option<string>)
    | Histogram(x: string, color: Option<string>)
      /** `x` is `None` when the x column was plotted as the value axis. */
    | BoxPlot(boxX: Option<string>, y: string, color: Option<string>)

  /** The fields of a successful response that the model tracks. */
  datatype Viz = Viz(chartType: string, plot: Plot, title: Option<string>,
                     xAxis: string, yAxis: Option<string>, color: Option<string>,
                     rowsUsed: nat, columnsUsed: seq<string>)

  const DefaultChartType: string := "scatter"

  /** The chart types the endpoint draws. */
  const ChartTypes: set<string> := {"scatter", "line", "bar", "histogram", "box"}

  /** The chart types that need a y axis. */
  const TwoAxisTypes: set<string> := {"scatter", "line", "bar"}

  /** The `chart_type` value that selects each Plotly Express call. */
  function PlotName(p: Plot): string {
    match p
    case Scatter(_, _, _) => "scatter"
    case LinePlot(_, _, _) => "line"
    case BarPlot(_, _, _) => "bar"
    case Histogram(_, _) => "histogram"
    case BoxPlot(_, _, _) => "box"
  }

  /** The `if/elif` over the chart type, once the columns are validated. */
  function Dispatch(chartType: string, x: string, y: Field, color: Option<string>): (r: Result<Plot, VizError>)
    ensures r.Success? <==> chartType in ChartTypes && (chartType in TwoAxisTypes ==> Truthy(y))
    ensures r.Success? ==> PlotName(r.value) == chartType
    ensures chartType !in ChartTypes ==> r == Failure(UnsupportedChartType(chartType))
    ensures chartType in TwoAxisTypes && !Truthy(y) ==> r == Failure(YAxisRequired(chartType))
  {
    if chartType == "scatter" then
      if !Truthy(y) then Failure(YAxisRequired(chartType)) else Success(Scatter(x, y.s, color))
    else if chartType == "line" then
      if !Truthy(y) then Failure(YAxisRequired(chartType)) else Success(LinePlot(x, y.s, color))
    else if chartType == "bar" then
      if !Truthy(y) then Failure(YAxisRequired(chartType)) else Success(BarPlot(x, y.s, color))
    else if chartType == "histogram" then
      Success(Histogram(x, color))
    else if chartType == "box" then
      if Truthy(y) then Success(BoxPlot(Some(x), y.s, color)) else Success(BoxPlot(None, x, color))
    else
      Failure(UnsupportedChartType(chartType))
  }

  /** `[col for col in [x_axis, y_axis, color] if col]`. */
  function ColumnsUsed(x: string, y: Field, color: Field): seq<string> {
    [x] + (if Truthy(y) then [y.s] else []) + (if Truthy(color) then [color.s] else [])
  }

  /** The chart type the endpoint works with. */
  function ChartTypeOf(q: VizRequest): string
    requires !q.chartType.Null?
  {
    if q.chartType.Absent? then DefaultChartType else q.chartType.s
  }

  /** `create_visualization`. */
  function Visualize(registry: Registry, body: Body): (r: Result<Viz, VizError>)
    // the order in which the checks fire
    ensures body.Unreadable? ==> r == Failure(BodyNotJson)
    ensures EmptyBody(body) ==> r == Failure(NoDataProvided)
    ensures body.Json? && !EmptyBody(body) && body.request.chartType.Null? ==> r == Failure(ChartTypeNotText)
    ensures body.Json? && !EmptyBody(body) && !body.request.chartType.Null?
            && !(body.request.datasetId.Given? && body.request.datasetId.s in registry) ==>
      r == Failure(DatasetNotFound)
    ensures r.Failure? && r.error == XAxisRequired ==> !Truthy(body.request.xAxis)
    ensures r.Failure? && r.error.ColumnNotFound? ==>
      && body.Json? && body.request.datasetId.Given? && body.request.datasetId.s in registry
      && Truthy(body.request.xAxis)
      && var names := Names(registry[body.request.datasetId.s].columns);
      && !ColumnsExist(names, body.request)
      && r.error.column !in names
      && (r.error.column == body.request.xAxis.s
          || (Truthy(body.request.yAxis) && r.error.column == body.request.yAxis.s)
          || (Truthy(body.request.color) && r.error.column == body.request.color.s))
    // what a success carries
    ensures r.Success? ==>
      && body.Json? && body.request.datasetId.Given? && body.request.datasetId.s in registry
      && Truthy(body.request.xAxis)
      && var q := body.request;
      var names := Names(registry[q.datasetId.s].columns);
      && r.value.chartType == ChartTypeOf(q) && r.value.chartType in ChartTypes
      && PlotName(r.value.plot) == r.value.chartType
      && r.value.xAxis == q.xAxis.s && r.value.xAxis in names
      && r.value.yAxis == Value(q.yAxis) && r.value.color == Value(q.color)
      && r.value.rowsUsed == |registry[q.datasetId.s].rows|
      && (forall c :: c in r.value.columnsUsed ==> c in names && c != "")
      && 1 <= |r.value.columnsUsed| <= 3 && r.value.columnsUsed[0] == q.xAxis.s
  {
    if body.Unreadable? then Failure(BodyNotJson)
    else if EmptyBody(body) then Failure(NoDataProvided)
    else
      var q := body.request;
      if q.chartType.Null? then Failure(ChartTypeNotText)
      else
        var chartType := ChartTypeOf(q);
        var title := match q.title
          case Absent => Some(Title(chartType) + " Chart")
          case Null => None
          case Given(t) => Some(t);
        if !(q.datasetId.Given? && q.datasetId.s in registry) then Failure(DatasetNotFound)
        else if !Truthy(q.xAxis) then Failure(XAxisRequired)
        else
          var t := registry[q.datasetId.s];
          var names := Names(t.columns);
          if q.xAxis.s !in names then Failure(ColumnNotFound(q.xAxis.s))
          else if Truthy(q.yAxis) && q.yAxis.s !in names then Failure(ColumnNotFound(q.yAxis.s))
          else if Truthy(q.color) && q.color.s !in names then Failure(ColumnNotFound(q.color.s))
          else match Dispatch(chartType, q.xAxis.s, q.yAxis, Value(q.color))
            case Failure(e) => Failure(e)
            case Success(plot) =>
              Success(Viz(chartType, plot, title, q.xAxis.s, Value(q.yAxis), Value(q.color),
                          |t.rows|, ColumnsUsed(q.xAxis.s, q.yAxis, q.color)))
  }

  /** Every named column exists in the dataset (an absent or empty y/color
      names nothing). */
  predicate ColumnsExist(names: seq<string>, q: VizRequest) {
    && Truthy(q.xAxis) && q.xAxis.s in names
    && (Truthy(q.yAxis) ==> q.yAxis.s in names)
    && (Truthy(q.color) ==> q.color.s in names)
  }

  /** The rule table of the endpoint, stated declaratively: a request is
      drawn exactly when it is non-empty, its chart type is text, its dataset
      exists, every named column exists, the chart type is one of the five,
      and scatter/line/bar have a y axis. */
  predicate Drawable(registry: Registry, body: Body) {
    && body.Json? && !EmptyBody(body)
    && !body.request.chartType.Null?
    && body.request.datasetId.Given? && body.request.datasetId.s in registry
    && ColumnsExist(Names(registry[body.request.datasetId.s].columns), body.request)
    && ChartTypeOf(body.request) in ChartTypes
    && (ChartTypeOf(body.request) in TwoAxisTypes ==> Truthy(body.request.yAxis))
  }

  lemma VisualizeSucceedsIffDrawable(registry: Registry, body: Body)
    ensures Visualize(registry, body).Success? <==> Drawable(registry, body)
  {
  }

  /** The status each refusal is answered with: 500 when the body cannot be
      read or `chart_type` is null (both reach the `except`), 404 when the
      dataset is unknown, 400 for every other refusal. */
  lemma VisualizeStatus(registry: Registry, body: Body)
    ensures var r := Visualize(registry, body);
      r.Failure? ==>
        && (Status(r.error) == 500 <==>
              body.Unreadable? || (body.Json? && !EmptyBody(body) && body.request.chartType.Null?))
        && (Status(r.error) == 404 <==>
              body.Json? && !EmptyBody(body) && !body.request.chartType.Null?
              && !(body.request.datasetId.Given? && body.request.datasetId.s in registry))
        && (Status(r.error) == 400 <==>
              EmptyBody(body)
              || (body.Json? && !body.request.chartType.Null?
                  && body.request.datasetId.Given? && body.request.datasetId.s in registry))
  {
  }

  /** A missing x axis is reported before any column or chart-type check. */
  lemma MissingXAxisWins(registry: Registry, q: VizRequest)
    requires !EmptyBody(Json(q)) && !q.chartType.Null?
    requires q.datasetId.Given? && q.datasetId.s in registry
    requires !Truthy(q.xAxis)
    ensures Visualize(registry, Json(q)) == Failure(XAxisRequired)
  {
  }

  /** A named column that does not exist is reported whatever the chart
      type, even one the endpoint does not draw. */
  lemma BadColumnBeatsChartType(registry: Registry, q: VizRequest)
    requires !EmptyBody(Json(q)) && !q.chartType.Null?
    requires q.datasetId.Given? && q.datasetId.s in registry
    requires Truthy(q.xAxis)
    requires !ColumnsExist(Names(registry[q.datasetId.s].columns), q)
    ensures var r := Visualize(registry, Json(q));
      r.Failure? && r.error.ColumnNotFound?
  {
  }

  /** Scatter, line and bar with valid x and y draw (x, y); without a y axis
      they are refused. */
  lemma TwoAxisCharts(registry: Registry, q: VizRequest)
    requires !EmptyBody(Json(q)) && !q.chartType.Null? && ChartTypeOf(q) in TwoAxisTypes
    requires q.datasetId.Given? && q.datasetId.s in registry
    requires Truthy(q.xAxis) && q.xAxis.s in Names(registry[q.datasetId.s].columns)
    requires !Truthy(q.color) || q.color.s in Names(registry[q.datasetId.s].columns)
    ensures var r := Visualize(registry, Json(q));
      && (!Truthy(q.yAxis) ==> r == Failure(YAxisRequired(ChartTypeOf(q))))
      && (Truthy(q.yAxis) && q.yAxis.s in Names(registry[q.datasetId.s].columns) ==>
            r.Success? && r.value.plot.x == q.xAxis.s && r.value.plot.y == q.yAxis.s)
  {
  }

  /** A histogram needs only x and never plots y; a y that is named must
      still exist. */
  lemma HistogramIgnoresY(registry: Registry, q: VizRequest)
    requires !EmptyBody(Json(q)) && q.chartType == Given("histogram")
    requires q.datasetId.Given? && q.datasetId.s in registry
    requires ColumnsExist(Names(registry[q.datasetId.s].columns), q)
    ensures var r := Visualize(registry, Json(q));
      r.Success? && r.value.plot == Histogram(q.xAxis.s, Value(q.color))
  {
  }

  /** A box plot uses (x, y) when y is given; otherwise x becomes the value
      axis. */
  lemma BoxSwapsAxes(registry: Registry, q: VizRequest)
    requires !EmptyBody(Json(q)) && q.chartType == Given("box")
    requires q.datasetId.Given? && q.datasetId.s in registry
    requires ColumnsExist(Names(registry[q.datasetId.s].columns), q)
    ensures var r := Visualize(registry, Json(q));
      && r.Success?
      && (Truthy(q.yAxis) ==> r.value.plot == BoxPlot(Some(q.xAxis.s), q.yAxis.s, Value(q.color)))
      && (!Truthy(q.yAxis) ==> r.value.plot == BoxPlot(None, q.xAxis.s, Value(q.color)))
  {
  }

  /** Without a `chart_type` member the request is a scatter plot, and its
      default title is "Scatter Chart". */
  lemma MissingChartTypeIsScatter(registry: Registry, q: VizRequest)
    requires !EmptyBody(Json(q)) && q.chartType.Absent? && q.title.Absent?
    requires Drawable(registry, Json(q))
    ensures var r := Visualize(registry, Json(q));
      r.Success? && r.value.chartType == "scatter" && r.value.plot.Scatter?
      && r.value.title == Some("Scatter Chart")
  {
    assert forall i :: 0 <= i < 7 ==> IsLower("scatter"[i]);
    TitleOfLowerWord("scatter");
    assert UpperChar('s') == 'S';
    assert [UpperChar('s')] + "scatter"[1..] == "Scatter";
    assert Title("scatter") + " Chart" == "Scatter Chart";
  }

  /** A successful response lists the columns used as x, then y, then color,
      skipping the ones not given. */
  lemma ColumnsUsedOrder(registry: Registry, q: VizRequest)
    requires Drawable(registry, Json(q))
    ensures var r := Visualize(registry, Json(q)).value;
      && (Truthy(q.yAxis) && Truthy(q.color) ==> r.columnsUsed == [q.xAxis.s, q.yAxis.s, q.color.s])
      && (Truthy(q.yAxis) && !Truthy(q.color) ==> r.columnsUsed == [q.xAxis.s, q.yAxis.s])
      && (!Truthy(q.yAxis) && Truthy(q.color) ==> r.columnsUsed == [q.xAxis.s, q.color.s])
      && (!Truthy(q.yAxis) && !Truthy(q.color) ==> r.columnsUsed == [q.xAxis.s])
  {
  }
}

=== FILE: dashboard.dfy ===
/** The Dash dashboard (app.py): the file-name gate of `parse_contents` and
    the `update_dashboard` callback, which offers date and value columns,
    auto-selects the first of each, filters rows by a date range, counts the
    KPIs and picks a chart. */
module Dashboard {
  import opened Wrappers
  import opened Text
  import opened Frame
  import Backend

  // =====================================================================
  // parse_contents

  const UnsupportedFileType: string := "Unsupported file type."

  /** `parse_contents` once the upload's data URL has been decoded. `read`
      is what `pd.read_csv` on the decoded text yields: the table, or the
      text of the exception it raised. */
  function ParseContents(filename: string, read: Result<Table, string>): (r: Result<Table, string>)
    ensures r.Success? <==> Contains(filename, "csv") && read.Success?
    ensures r.Success? ==> r.value == read.value
    ensures r == Failure(UnsupportedFileType) <==> !Contains(filename, "csv")
    ensures Contains(filename, "csv") && read.Failure? ==> r.error == "Error: " + read.error
  {
    if Contains(filename, "csv") then
      match read
      case Success(t) => Success(t)
      case Failure(e) =>
        assert ("Error: " + e)[0] != UnsupportedFileType[0];
        Failure("Error: " + e)
    else
      Failure(UnsupportedFileType)
  }

  /** The dashboard's gate is looser than the API's `allowed_file` on names
      that merely mention "csv": "notes_csv.txt" passes here and is refused
      there. */
  lemma SubstringGateIsLooser(read: Result<Table, string>)
    ensures ParseContents("notes_csv.txt", read) != Failure(UnsupportedFileType)
    ensures !Backend.AllowedFile("notes_csv.txt")
  {
    ContainsAt("notes_csv.txt", "csv", 6);
    Backend.AllowedFileIff("notes_csv.txt");
    assert "notes_csv.txt"[10..] == "txt";
    assert Lower("txt")[0] == 't';
  }

  /** ... but stricter on case: "x.CSV" is accepted by `allowed_file` and
      refused here, since the substring test is case sensitive. The two
      gates are therefore incomparable. */
  lemma SubstringGateIsCaseSensitive(read: Result<Table, string>)
    ensures Backend.AllowedFile("x.CSV")
    ensures ParseContents("x.CSV", read) == Failure(UnsupportedFileType)
  {
    Backend.UpperCaseExtensionAllowed();
    var s := "x.CSV";
    assert s[..3] != "csv" by { assert s[0] == 'x'; }
    assert s[1..][..3] != "csv" by { assert s[1] == '.'; }
    assert s[1..][1..][..3] != "csv" by { assert s[2] == 'C'; }
    assert |s[1..][1..][1..]| < 3;
    assert !Contains(s, "csv");
  }

  /** A name ending in the lower-case extension ".csv" passes both gates. */
  lemma LowerCaseCsvPassesBoth(filename: string)
    requires |filename| >= 4 && filename[|filename| - 4..] == ".csv"
    ensures Backend.AllowedFile(filename)
    ensures Contains(filename, "csv")
  {
    var n := |filename|;
    assert filename[n - 3..] == "csv";
    assert filename[n - 4] == '.';
    assert Lower("csv") == "csv" by {
      assert Lower("csv")[0] == 'c' && Lower("csv")[1] == 's' && Lower("csv")[2] == 'v';
    }
    Backend.AllowedFileIff(filename);
    ContainsAt(filename, "csv", n - 3);
  }

  // =====================================================================
  // Column options and auto-selection

  /** The two dropdowns: date columns (`select_dtypes(['datetime',
      'object'])`) and value columns (`select_dtypes([np.number])`). */
  datatype Role = DateRole | ValueRole

  predicate Fits(role: Role, dtype: Dtype) {
    match role
    case DateRole => dtype == Datetime || dtype == Object
    case ValueRole => dtype == Number
  }

  /** The names offered for a role, in column order. */
  function Options(columns: seq<Column>, role: Role): (r: seq<string>)
    ensures |r| <= |columns|
    ensures forall i :: 0 <= i < |r| ==>
      exists j :: 0 <= j < |columns| && columns[j].name == r[i] && Fits(role, columns[j].dtype)
  {
    if |columns| == 0 then []
    else
      var rest := Options(columns[1..], role);
      if Fits(role, columns[0].dtype) then [columns[0].name] + rest else rest
  }

  /** Every column of the role is offered. */
  lemma {:induction false} OptionsComplete(columns: seq<Column>, role: Role, j: nat)
    requires j < |columns| && Fits(role, columns[j].dtype)
    ensures columns[j].name in Options(columns, role)
  {
    if j > 0 {
      OptionsComplete(columns[1..], role, j - 1);
    }
  }

  /** `a` is `b` with some elements left out, the rest in the same order. */
  predicate IsSubsequence<T(==)>(a: seq<T>, b: seq<T>)
    decreases |b|
  {
    if |a| == 0 then true
    else if |b| == 0 then false
    else (a[0] == b[0] && IsSubsequence(a[1..], b[1..])) || IsSubsequence(a, b[1..])
  }

  /** The options keep the table's column order. */
  lemma {:induction false} OptionsInColumnOrder(columns: seq<Column>, role: Role)
    ensures IsSubsequence(Options(columns, role), Names(columns))
  {
    if |columns| > 0 {
      OptionsInColumnOrder(columns[1..], role);
      assert Names(columns)[1..] == Names(columns[1..]);
      var r := Options(columns, role);
      if Fits(role, columns[0].dtype) {
        assert r[1..] == Options(columns[1..], role);
      }
    }
  }

  /** Index of the first column of the role. */
  function FirstFit(columns: seq<Column>, role: Role): (r: Option<nat>)
    ensures r.None? <==> forall j :: 0 <= j < |columns| ==> !Fits(role, columns[j].dtype)
    ensures r.Some? ==> r.value < |columns| && Fits(role, columns[r.value].dtype)
    ensures r.Some? ==> forall j :: 0 <= j < r.value ==> !Fits(role, columns[j].dtype)
  {
    if |columns| == 0 then None
    else if Fits(role, columns[0].dtype) then Some(0)
    else match FirstFit(columns[1..], role)
      case None => None
      case Some(k) => Some(k + 1)
  }

  /** `options[0]['value'] if options else None`. */
  function Default(options: seq<string>): Option<string> {
    if |options| == 0 then None else Some(options[0])
  }

  /** The auto-selected column is the first column of its role in table
      order, and there is none exactly when no column has the role. */
  lemma {:induction false} DefaultIsFirstFit(columns: seq<Column>, role: Role)
    ensures Default(Options(columns, role)) ==
      (match FirstFit(columns, role)
       case None => None
       case Some(k) => Some(columns[k].name))
  {
    if |columns| > 0 && !Fits(role, columns[0].dtype) {
      DefaultIsFirstFit(columns[1..], role);
    }
  }

  // =====================================================================
  // Date-range filter

  /** A truthy dropdown value: a non-empty column name. */
  predicate Chosen(o: Option<string>) {
    o.Some? && o.value != ""
  }

  /** The mask `(col >= start) & (col <= end)` on one row: a missing stamp
      (`NaT`) compares false both ways and so fails the mask. */
  predicate InWindow(row: Row, k: nat, start: int, end: int) {
    k < |row| && row[k].Time? && start <= row[k].instant <= end
  }

  /** `df.loc[mask]`. */
  function KeepInWindow(rows: seq<Row>, k: nat, start: int, end: int): (kept: seq<Row>)
    ensures |kept| <= |rows|
    ensures forall i :: 0 <= i < |kept| ==> InWindow(kept[i], k, start, end) && kept[i] in rows
  {
    if |rows| == 0 then []
    else
      var rest := KeepInWindow(rows[1..], k, start, end);
      if InWindow(rows[0], k, start, end) then [rows[0]] + rest else rest
  }

  /** Every row inside the window survives the filter. */
  lemma {:induction false} KeepInWindowComplete(rows: seq<Row>, k: nat, start: int, end: int, i: nat)
    requires i < |rows| && InWindow(rows[i], k, start, end)
    ensures rows[i] in KeepInWindow(rows, k, start, end)
  {
    if i > 0 {
      KeepInWindowComplete(rows[1..], k, start, end, i - 1);
    }
  }

  /** The kept rows keep their original order. */
  lemma {:induction false} KeepInWindowInOrder(rows: seq<Row>, k: nat, start: int, end: int)
    ensures IsSubsequence(KeepInWindow(rows, k, start, end), rows)
  {
    if |rows| > 0 {
      KeepInWindowInOrder(rows[1..], k, start, end);
      var kept := KeepInWindow(rows, k, start, end);
      if InWindow(rows[0], k, start, end) {
        assert kept[1..] == KeepInWindow(rows[1..], k, start, end);
      }
    }
  }

  /** The filter keeps every copy of an in-window row and no copy of any
      other row: with `KeepInWindowInOrder` this fixes the result exactly,
      repeated rows included. */
  lemma {:induction false} KeepInWindowCounts(rows: seq<Row>, k: nat, start: int, end: int)
    ensures forall r :: multiset(KeepInWindow(rows, k, start, end))[r] ==
                        (if InWindow(r, k, start, end) then multiset(rows)[r] else 0)
  {
    if |rows| > 0 {
      KeepInWindowCounts(rows[1..], k, start, end);
      assert rows == [rows[0]] + rows[1..];
    }
  }

  /** Nothing is dropped exactly when every row lies inside the window. */
  lemma {:induction false} KeepInWindowKeepsAll(rows: seq<Row>, k: nat, start: int, end: int)
    ensures KeepInWindow(rows, k, start, end) == rows <==>
      forall i :: 0 <= i < |rows| ==> InWindow(rows[i], k, start, end)
  {
    if |rows| > 0 {
      KeepInWindowKeepsAll(rows[1..], k, start, end);
      var rest := KeepInWindow(rows[1..], k, start, end);
      if !InWindow(rows[0], k, start, end) {
        assert |KeepInWindow(rows, k, start, end)| < |rows| by {
          assert |rest| <= |rows[1..]|;
        }
      }
      assert forall i :: 1 <= i < |rows| ==> rows[i] == rows[1..][i - 1];
    }
  }

  /** Why the callback stops without updating its outputs. */
  datatype Fault =
      /** `df[date_col]` with a name the table lacks raises `KeyError`. */
    | KeyMissing(column: string)
      /** `df.columns[0]` on a table without columns raises `IndexError`. */
    | NoColumns
      /** `fig.update_traces` on the plain dict `{}` raises `AttributeError`. */
    | NoFigure

  /** The filter runs only when a date column is chosen, that column holds
      date-times, and both ends of the range are given. */
  predicate FilterApplies(t: Table, dateCol: Option<string>, start: Option<int>, end: Option<int>) {
    && Chosen(dateCol)
    && ColumnIndex(t.columns, dateCol.value).Some?
    && t.columns[ColumnIndex(t.columns, dateCol.value).value].dtype == Datetime
    && start.Some? && end.Some?
  }

  /** The "Filter by date" step of `update_dashboard`. */
  function DateFilter(t: Table, dateCol: Option<string>, start: Option<int>, end: Option<int>): (r: Result<Table, Fault>)
    ensures r.Failure? <==> Chosen(dateCol) && dateCol.value !in Names(t.columns)
    ensures r.Failure? ==> r.error == KeyMissing(dateCol.value)
    ensures r.Success? ==> r.value.columns == t.columns && |r.value.rows| <= |t.rows|
    ensures r.Success? ==> forall i :: 0 <= i < |r.value.rows| ==> r.value.rows[i] in t.rows
    ensures r.Success? && !FilterApplies(t, dateCol, start, end) ==> r.value == t
    ensures FilterApplies(t, dateCol, start, end) ==>
      var k := ColumnIndex(t.columns, dateCol.value).value;
      r.Success? && forall i :: 0 <= i < |r.value.rows| ==> InWindow(r.value.rows[i], k, start.value, end.value)
  {
    if Chosen(dateCol) then
      ColumnIndexFindsListedNames(t.columns, dateCol.value);
      match ColumnIndex(t.columns, dateCol.value)
      case None => Failure(KeyMissing(dateCol.value))
      case Some(k) =>
        if t.columns[k].dtype == Datetime && start.Some? && end.Some? then
          Success(Table(t.columns, KeepInWindow(t.rows, k, start.value, end.value)))
        else
          Success(t)
    else
      Success(t)
  }

  /** When the filter applies it keeps exactly the rows whose stamp lies in
      [start, end], in their original order. */
  lemma FilterKeepsExactlyTheWindow(t: Table, dateCol: Option<string>, start: Option<int>, end: Option<int>)
    requires FilterApplies(t, dateCol, start, end)
    ensures var k := ColumnIndex(t.columns, dateCol.value).value;
      var shown := DateFilter(t, dateCol, start, end).value;
      && IsSubsequence(shown.rows, t.rows)
      && (forall i :: 0 <= i < |t.rows| ==>
           (t.rows[i] in shown.rows <==> InWindow(t.rows[i], k, start.value, end.value)))
      && forall r :: multiset(shown.rows)[r] ==
           (if InWindow(r, k, start.value, end.value) then multiset(t.rows)[r] else 0)
  {
    var k := ColumnIndex(t.columns, dateCol.value).value;
    KeepInWindowInOrder(t.rows, k, start.value, end.value);
    KeepInWindowCounts(t.rows, k, start.value, end.value);
    forall i | 0 <= i < |t.rows| && InWindow(t.rows[i], k, start.value, end.value)
      ensures t.rows[i] in DateFilter(t, dateCol, start, end).value.rows
    {
      KeepInWindowComplete(t.rows, k, start.value, end.value, i);
    }
  }

  /** `pd.read_csv` without `parse_dates` produces numeric, boolean and
      object columns only, so on an uploaded CSV the date filter never
      removes a row. */
  lemma CsvTablesAreNeverFiltered(t: Table, dateCol: Option<string>, start: Option<int>, end: Option<int>)
    requires forall j :: 0 <= j < |t.columns| ==> t.columns[j].dtype in {Number, Bool, Object}
    ensures DateFilter(t, dateCol, start, end).Success? ==> DateFilter(t, dateCol, start, end).value == t
  {
  }

  // =====================================================================
  // Chart choice

  /** The Plotly Express call chosen, with the columns feeding it. */
  datatype Chart =
    | LineChart(x: string, y: string)
    | BarChart(x: string, y: string)
    | PieChart(names: string, values: string)
    | DensityHeatmap(x: string, y: string)

  /** The dropdown value that selects each chart. */
  function ChartName(c: Chart): string {
    match c
    case LineChart(_, _) => "line"
    case BarChart(_, _) => "bar"
    case PieChart(_, _) => "pie"
    case DensityHeatmap(_, _) => "heatmap"
  }

  /** The category axis of pie and heatmap: the date column when one is
      chosen, else the table's first column. */
  function CategoryAxis(dateCol: Option<string>, columns: seq<string>): Result<string, Fault> {
    if Chosen(dateCol) then Success(dateCol.value)
    else if |columns| == 0 then Failure(NoColumns)
    else Success(columns[0])
  }

  /** The `if/elif` chain that picks the chart; `None` is the empty figure
      `{}`. */
  function ChooseChart(chartType: string, dateCol: Option<string>, valueCol: Option<string>, columns: seq<string>): (r: Result<Option<Chart>, Fault>)
    ensures r.Success? && r.value.Some? ==> ChartName(r.value.value) == chartType
    ensures r.Success? && r.value.Some? && (chartType == "line" || chartType == "bar") ==>
      Chosen(dateCol) && Chosen(valueCol)
      && r.value.value.x == dateCol.value && r.value.value.y == valueCol.value
    ensures r.Success? && r.value.Some? && r.value.value.PieChart? ==>
      Chosen(valueCol) && r.value.value.values == valueCol.value
      && (Chosen(dateCol) ==> r.value.value.names == dateCol.value)
      && (!Chosen(dateCol) ==> |columns| > 0 && r.value.value.names == columns[0])
    ensures r.Success? && r.value.Some? && r.value.value.DensityHeatmap? ==>
      Chosen(valueCol) && r.value.value.y == valueCol.value
      && (Chosen(dateCol) ==> r.value.value.x == dateCol.value)
      && (!Chosen(dateCol) ==> |columns| > 0 && r.value.value.x == columns[0])
    ensures r.Failure? <==>
      (chartType == "pie" || chartType == "heatmap") && Chosen(valueCol) && !Chosen(dateCol) && |columns| == 0
    ensures r == Success(None) <==>
      && !((chartType == "line" || chartType == "bar") && Chosen(dateCol) && Chosen(valueCol))
      && !((chartType == "pie" || chartType == "heatmap") && Chosen(valueCol))
  {
    if chartType == "line" && Chosen(dateCol) && Chosen(valueCol) then
      Success(Some(LineChart(dateCol.value, valueCol.value)))
    else if chartType == "bar" && Chosen(dateCol) && Chosen(valueCol) then
      Success(Some(BarChart(dateCol.value, valueCol.value)))
    else if chartType == "pie" && Chosen(valueCol) then
      match CategoryAxis(dateCol, columns)
      case Failure(f) => Failure(f)
      case Success(names) => Success(Some(PieChart(names, valueCol.value)))
    else if chartType == "heatmap" && Chosen(valueCol) then
      match CategoryAxis(dateCol, columns)
      case Failure(f) => Failure(f)
      case Success(x) => Success(Some(DensityHeatmap(x, valueCol.value)))
    else
      Success(None)
  }

  // =====================================================================
  // update_dashboard

  /** The four KPI cards: rows, columns and missing cells of the table as
      shown, and the column whose range the "Date Range" card reports
      (`None` prints "N/A"). */
  datatype Kpis = Kpis(rows: nat, columns: nat, missing: nat, dateRange: Option<string>)

  /** The data table: the shown table's column names and its first rows. */
  datatype Preview = Preview(columns: seq<string>, data: seq<Row>)

  /** The eight outputs of the callback; `None` stands for the empty string
      or the empty figure the callback returns in their place. */
  datatype View = View(info: string, dateOptions: seq<string>, valueOptions: seq<string>,
                       dateValue: Option<string>, valueValue: Option<string>,
                       kpis: Option<Kpis>, chart: Option<Chart>, preview: Option<Preview>)

  const EmptyView: View := View("", [], [], None, None, None, None, None)

  /** `df.head(100)`. */
  const PreviewRows: nat := 100

  /** The callback's inputs. `contents` is `None` before any upload;
      otherwise it is what `pd.read_csv` makes of the uploaded bytes. */
  datatype Inputs = Inputs(contents: Option<Result<Table, string>>, chartType: string,
                           dateCol: Option<string>, valueCol: Option<string>,
                           start: Option<int>, end: Option<int>, filename: string)

  /** The outputs computed from a parsed table. */
  function Render(inputs: Inputs, t: Table): (r: Result<View, Fault>)
    ensures r.Failure? ==> r.error != NoFigure
    // a refusal comes from the date filter first, then from the chart choice
    ensures DateFilter(t, inputs.dateCol, inputs.start, inputs.end).Failure? ==>
      r == Failure(DateFilter(t, inputs.dateCol, inputs.start, inputs.end).error)
    ensures DateFilter(t, inputs.dateCol, inputs.start, inputs.end).Success? ==>
      var chosen := ChooseChart(inputs.chartType, inputs.dateCol, inputs.valueCol, Names(t.columns));
      && (chosen.Failure? ==> r == Failure(chosen.error))
      && (chosen.Success? ==> r.Success? && r.value.chart == chosen.value)
    // the KPIs and the preview describe the filtered rows
    ensures r.Success? ==>
      var shown := DateFilter(t, inputs.dateCol, inputs.start, inputs.end).value;
      && r.value.kpis.Some? && r.value.preview.Some?
      && r.value.kpis.value.rows == |shown.rows| <= |t.rows|
      && r.value.kpis.value.columns == |t.columns|
      && r.value.kpis.value.missing == MissingCount(shown.rows)
      && r.value.preview.value.columns == Names(t.columns)
      && r.value.preview.value.data == shown.rows[..Min(PreviewRows, |shown.rows|)]
      && r.value.info == "Loaded: " + inputs.filename
  {
    var dateOptions := Options(t.columns, DateRole);
    var valueOptions := Options(t.columns, ValueRole);
    match DateFilter(t, inputs.dateCol, inputs.start, inputs.end)
    case Failure(f) => Failure(f)
    case Success(shown) =>
      var kpis := Kpis(|shown.rows|, |shown.columns|, MissingCount(shown.rows),
                       if Chosen(inputs.dateCol) then inputs.dateCol else None);
      match ChooseChart(inputs.chartType, inputs.dateCol, inputs.valueCol, Names(shown.columns))
      case Failure(f) => Failure(f)
      case Success(chart) =>
        var head := shown.rows[..Min(PreviewRows, |shown.rows|)];
        Success(View("Loaded: " + inputs.filename, dateOptions, valueOptions,
                     Default(dateOptions), Default(valueOptions),
                     Some(kpis), chart, Some(Preview(Names(shown.columns), head))))
  }

  /** `update_dashboard`, drawing the empty figure when no chart is chosen. */
  function Update(inputs: Inputs): (r: Result<View, Fault>)
    ensures inputs.contents.None? ==> r == Success(EmptyView)
    ensures inputs.contents.Some? && ParseContents(inputs.filename, inputs.contents.value).Failure? ==>
      r == Success(EmptyView.(info := ParseContents(inputs.filename, inputs.contents.value).error))
    ensures r.Failure? ==> r.error != NoFigure
    ensures r.Failure? && r.error.KeyMissing? ==>
      Chosen(inputs.dateCol) && inputs.dateCol.value == r.error.column
  {
    match inputs.contents
    case None => Success(EmptyView)
    case Some(read) =>
      match ParseContents(inputs.filename, read)
      case Failure(err) => Success(EmptyView.(info := err))
      case Success(t) => Render(inputs, t)
  }

  /** `update_dashboard` as written: after a table is parsed it calls
      `fig.update_traces`, which raises when `fig` is still the dict `{}`. */
  function UpdateAsWritten(inputs: Inputs): (r: Result<View, Fault>)
    ensures r.Failure? && r.error == NoFigure <==>
      Update(inputs).Success? && Update(inputs).value.kpis.Some? && Update(inputs).value.chart.None?
    ensures r.Success? ==> r == Update(inputs)
  {
    match Update(inputs)
    case Failure(f) => Failure(f)
    case Success(v) => if v.kpis.Some? && v.chart.None? then Failure(NoFigure) else Success(v)
  }

  /** The offered options are exactly the columns of each role, in column
      order, and the pre-selected value is the first column of its role. */
  lemma RenderedOptions(inputs: Inputs, t: Table)
    requires Render(inputs, t).Success?
    ensures var v := Render(inputs, t).value;
      && IsSubsequence(v.dateOptions, Names(t.columns))
      && IsSubsequence(v.valueOptions, Names(t.columns))
      && (forall j :: 0 <= j < |t.columns| && Fits(DateRole, t.columns[j].dtype) ==> t.columns[j].name in v.dateOptions)
      && (forall j :: 0 <= j < |t.columns| && Fits(ValueRole, t.columns[j].dtype) ==> t.columns[j].name in v.valueOptions)
      && v.dateValue == (match FirstFit(t.columns, DateRole) case None => None case Some(k) => Some(t.columns[k].name))
      && v.valueValue == (match FirstFit(t.columns, ValueRole) case None => None case Some(k) => Some(t.columns[k].name))
  {
    OptionsInColumnOrder(t.columns, DateRole);
    OptionsInColumnOrder(t.columns, ValueRole);
    DefaultIsFirstFit(t.columns, DateRole);
    DefaultIsFirstFit(t.columns, ValueRole);
    forall j | 0 <= j < |t.columns| && Fits(DateRole, t.columns[j].dtype)
      ensures t.columns[j].name in Options(t.columns, DateRole)
    {
      OptionsComplete(t.columns, DateRole, j);
    }
    forall j | 0 <= j < |t.columns| && Fits(ValueRole, t.columns[j].dtype)
      ensures t.columns[j].name in Options(t.columns, ValueRole)
    {
      OptionsComplete(t.columns, ValueRole, j);
    }
  }

  /** The corrected callback and the original agree whenever a chart is
      drawn, and on both early returns. */
  lemma AsWrittenAgreesWhenCharted(inputs: Inputs)
    requires Update(inputs).Success?
    requires Update(inputs).value.chart.Some? || Update(inputs).value.kpis.None?
    ensures UpdateAsWritten(inputs) == Update(inputs)
  {
  }

  /** The first upload: both dropdowns are still unset, so with the default
      "line" chart no figure is chosen. The callback as written raises, and
      none of its outputs (including the options the user needs to pick
      columns) update; the corrected callback offers and pre-selects the
      columns. */
  lemma FirstUploadFailsAsWritten()
    ensures var t := Table([Column("date", Object), Column("sales", Number)], [[Val("2024-01-01"), Val("10")]]);
      var inputs := Inputs(Some(Success(t)), "line", None, None, None, None, "sales.csv");
      && UpdateAsWritten(inputs) == Failure(NoFigure)
      && Update(inputs).Success?
      && Update(inputs).value.dateValue == Some("date")
      && Update(inputs).value.valueValue == Some("sales")
      && Update(inputs).value.chart.None?
  {
    var t := Table([Column("date", Object), Column("sales", Number)], [[Val("2024-01-01"), Val("10")]]);
    ContainsAt("sales.csv", "csv", 6);
    assert Options(t.columns, DateRole) == ["date"] by {
      assert t.columns[1..][1..] == [];
    }
    assert Options(t.columns, ValueRole) == ["sales"] by {
      assert t.columns[1..][1..] == [];
    }
  }
}

=== FILE: frame.dfy ===
/** The part of a pandas DataFrame the handlers look at: an ordered list of
    named, typed columns and the rows beneath them. Cell values are kept
    abstract except where a handler compares them (date-time stamps) or
    counts them (missing values). */
module Frame {
  import opened Wrappers

  /** The dtype families `select_dtypes` and `is_datetime64_any_dtype`
      distinguish: numbers (`np.number`), booleans, Python objects (text),
      naive date-times, and everything else. */
  datatype Dtype = Number | Bool | Object | Datetime | OtherDtype

  /** One cell: missing (`NaN`/`NaT`/`None`), a date-time stamp on an abstract
      integer time line, or any other value. */
  datatype Cell = NA | Time(instant: int) | Val(text: string)

  datatype Column = Column(name: string, dtype: Dtype)

  /** A row holds one cell per column, in column order. */
  type Row = seq<Cell>

  datatype Table = Table(columns: seq<Column>, rows: seq<Row>)

  /** `df.columns.tolist()`. */
  function Names(columns: seq<Column>): (r: seq<string>)
    ensures |r| == |columns|
    ensures forall i :: 0 <= i < |columns| ==> r[i] == columns[i].name
  {
    seq(|columns|, i requires 0 <= i < |columns| => columns[i].name)
  }

  /** Position of the first column called `name`: the column `df[name]`
      reads. `None` is pandas' `KeyError`. */
  function ColumnIndex(columns: seq<Column>, name: string): (r: Option<nat>)
    ensures r.None? <==> forall j :: 0 <= j < |columns| ==> columns[j].name != name
    ensures r.Some? ==> r.value < |columns| && columns[r.value].name == name
    ensures r.Some? ==> forall j :: 0 <= j < r.value ==> columns[j].name != name
  {
    if |columns| == 0 then None
    else if columns[0].name == name then Some(0)
    else match ColumnIndex(columns[1..], name)
      case None => None
      case Some(k) => Some(k + 1)
  }

  /** Lookup succeeds exactly for the names `df.columns` lists. */
  lemma ColumnIndexFindsListedNames(columns: seq<Column>, name: string)
    ensures ColumnIndex(columns, name).Some? <==> name in Names(columns)
  {
    var names := Names(columns);
    if name in names {
      var j :| 0 <= j < |names| && names[j] == name;
      assert columns[j].name == name;
    }
  }

  /** The smaller of two bounds: how many rows `df.head(n)` and a clipped
      slice end actually reach. */
  function Min(a: int, b: int): (m: int)
    ensures m <= a && m <= b && (m == a || m == b)
  {
    if a <= b then a else b
  }

  /** Number of missing cells in a row. */
  function RowMissing(row: Row): (n: nat)
    ensures n <= |row|
  {
    if |row| == 0 then 0
    else (if row[0].NA? then 1 else 0) + RowMissing(row[1..])
  }

  /** `df.isnull().sum().sum()`: missing cells over the whole table. */
  function MissingCount(rows: seq<Row>): nat {
    if |rows| == 0 then 0 else RowMissing(rows[0]) + MissingCount(rows[1..])
  }

  /** A table with no missing cell anywhere reports zero missing values, and
      a table reports zero only when it has none. */
  lemma {:induction false} MissingCountZero(rows: seq<Row>)
    ensures MissingCount(rows) == 0 <==>
      forall i, j :: 0 <= i < |rows| && 0 <= j < |rows[i]| ==> !rows[i][j].NA?
  {
    if |rows| > 0 {
      RowMissingZero(rows[0]);
      MissingCountZero(rows[1..]);
      assert forall i :: 1 <= i < |rows| ==> rows[i] == rows[1..][i - 1];
    }
  }

  lemma {:induction false} RowMissingZero(row: Row)
    ensures RowMissing(row) == 0 <==> forall j :: 0 <= j < |row| ==> !row[j].NA?
  {
    if |row| > 0 {
      RowMissingZero(row[1..]);
      assert forall j :: 1 <= j < |row| ==> row[j] == row[1..][j - 1];
    }
  }
}

=== FILE: text.dfy ===
/** The handful of Python string operations the request handlers rely on:
    `rsplit(c, 1)[1]`, `str.lower()`, `str(n)` for a natural number, the
    substring test `p in s`, and `str.title()`. Characters are Unicode code
    points; case mapping is modelled on the ASCII letters only. */
module Text {
  import opened Wrappers

  // ---------------------------------------------------------------------
  // rsplit(c, 1)[1]: the text after the last separator

  /** The text after the last occurrence of `c` in `s`; all of `s` when `c`
      does not occur. This is `s.rsplit(c, 1)[-1]`. */
  function AfterLast(s: string, c: char): (r: string)
    ensures c !in r
    ensures |r| <= |s| && r == s[|s| - |r|..]
    ensures c in s ==> |r| < |s| && s[|s| - |r| - 1] == c
    ensures c !in s ==> r == s
  {
    if |s| == 0 then s
    else if s[|s| - 1] == c then []
    else AfterLast(s[..|s| - 1], c) + [s[|s| - 1]]
  }

  /** Splitting `a + c + b` at its last `c` gives back `b` whenever `b` holds
      no `c`: the separator found is the one that was put there. */
  lemma AfterLastOfJoin(a: string, c: char, b: string)
    requires c !in b
    ensures AfterLast(a + [c] + b, c) == b
  {
    var s := a + [c] + b;
    assert s[|a|] == c;
    assert s[|s| - |b|..] == b;
  }

  // ---------------------------------------------------------------------
  // ASCII case mapping

  predicate IsUpper(c: char) {
    'A' <= c <= 'Z'
  }

  predicate IsLower(c: char) {
    'a' <= c <= 'z'
  }

  /** A cased character in the sense of `str.title()`. */
  predicate IsCased(c: char) {
    IsUpper(c) || IsLower(c)
  }

  function LowerChar(c: char): (r: char)
    ensures !IsUpper(r)
  {
    if IsUpper(c) then (c as int + 32) as char else c
  }

  function UpperChar(c: char): (r: char)
    ensures !IsLower(r)
  {
    if IsLower(c) then (c as int - 32) as char else c
  }

  /** `str.lower()`. */
  function Lower(s: string): (r: string)
    ensures |r| == |s|
    ensures forall i :: 0 <= i < |s| ==> r[i] == LowerChar(s[i])
  {
    seq(|s|, i requires 0 <= i < |s| => LowerChar(s[i]))
  }

  /** Two letters that agree once lower-cased and agree on being upper case
      are the same letter. */
  lemma SameLetter(a: char, b: char)
    requires IsCased(a) && IsCased(b)
    requires LowerChar(a) == LowerChar(b)
    requires IsUpper(a) == IsUpper(b)
    ensures a == b
  {
  }

  // ---------------------------------------------------------------------
  // Decimal numerals: str(n) and its inverse

  predicate IsDigit(c: char) {
    '0' <= c <= '9'
  }

  function DigitChar(d: nat): (c: char)
    requires d < 10
    ensures IsDigit(c)
  {
    ('0' as int + d) as char
  }

  function DigitValue(c: char): (d: nat)
    requires IsDigit(c)
    ensures d < 10 && DigitChar(d) == c
  {
    c as int - '0' as int
  }

  /** `str(n)` for a natural number: decimal digits with no leading zero. */
  function Decimal(n: nat): (r: string)
    ensures |r| >= 1
    ensures forall i :: 0 <= i < |r| ==> IsDigit(r[i])
    ensures (r[0] == '0') == (n == 0)
    ensures |r| > 1 ==> r[0] != '0'
  {
    if n < 10 then [DigitChar(n)] else Decimal(n / 10) + [DigitChar(n % 10)]
  }

  /** Reads a run of decimal digits; `None` for the empty text or any
      non-digit character. */
  function ParseDecimal(s: string): (r: Option<nat>)
    ensures r.Some? <==> |s| >= 1 && forall i :: 0 <= i < |s| ==> IsDigit(s[i])
  {
    if |s| == 0 || !IsDigit(s[|s| - 1]) then None
    else if |s| == 1 then Some(DigitValue(s[0]))
    else match ParseDecimal(s[..|s| - 1])
      case None => None
      case Some(v) => Some(10 * v + DigitValue(s[|s| - 1]))
  }

  /** Reading back a printed number gives the number. */
  lemma {:induction false} DecimalRoundTrip(n: nat)
    ensures ParseDecimal(Decimal(n)) == Some(n)
  {
    if n >= 10 {
      var p := Decimal(n / 10);
      var s := p + [DigitChar(n % 10)];
      assert s[..|s| - 1] == p;
      DecimalRoundTrip(n / 10);
    }
  }

  // ---------------------------------------------------------------------
  // Substring test: `p in s`

  /** Python's `p in s` on strings. */
  predicate Contains(s: string, p: string)
    decreases |s|
  {
    |p| <= |s| && (s[..|p|] == p || Contains(s[1..], p))
  }

  /** `p` occurs in `s` starting at index `i`. */
  predicate OccursAt(s: string, p: string, i: int) {
    0 <= i <= |s| - |p| && s[i..i + |p|] == p
  }

  /** `Contains` is exactly "occurs at some position". */
  lemma {:induction false} ContainsIff(s: string, p: string)
    ensures Contains(s, p) <==> exists i :: OccursAt(s, p, i)
    decreases |s|
  {
    if |p| <= |s| {
      if s[..|p|] == p {
        assert OccursAt(s, p, 0);
      } else {
        ContainsIff(s[1..], p);
        if Contains(s[1..], p) {
          var i :| OccursAt(s[1..], p, i);
          assert s[i + 1..i + 1 + |p|] == s[1..][i..i + |p|];
          assert OccursAt(s, p, i + 1);
        }
        if i :| OccursAt(s, p, i) {
          assert i != 0;
          assert s[1..][i - 1..i - 1 + |p|] == s[i..i + |p|];
          assert OccursAt(s[1..], p, i - 1);
        }
      }
    }
  }

  /** An occurrence at a known position is found. */
  lemma ContainsAt(s: string, p: string, i: nat)
    requires i + |p| <= |s| && s[i..i + |p|] == p
    ensures Contains(s, p)
  {
    ContainsIff(s, p);
    assert OccursAt(s, p, i);
  }

  // ---------------------------------------------------------------------
  // str.title()

  /** `str.title()` continued from a state in which the previous character
      was (`prevCased`) or was not cased. */
  function TitleFrom(s: string, prevCased: bool): (r: string)
    ensures |r| == |s|
    ensures forall i :: 0 <= i < |s| ==> LowerChar(r[i]) == LowerChar(s[i])
    ensures forall i :: 0 <= i < |s| && !IsCased(s[i]) ==> r[i] == s[i]
    ensures forall i :: 0 <= i < |s| ==>
      (IsUpper(r[i]) <==> IsCased(s[i]) && !(if i == 0 then prevCased else IsCased(s[i - 1])))
  {
    if |s| == 0 then []
    else
      var c := s[0];
      if IsCased(c) then
        [if prevCased then LowerChar(c) else UpperChar(c)] + TitleFrom(s[1..], true)
      else
        [c] + TitleFrom(s[1..], false)
  }

  /** `str.title()`: the first letter of every run of letters upper case, the
      rest lower case, everything else unchanged. */
  function Title(s: string): (r: string)
    ensures |r| == |s|
    ensures forall i :: 0 <= i < |s| ==> LowerChar(r[i]) == LowerChar(s[i])
    ensures forall i :: 0 <= i < |s| && !IsCased(s[i]) ==> r[i] == s[i]
    ensures forall i :: 0 <= i < |s| ==>
      (IsUpper(r[i]) <==> IsCased(s[i]) && (i == 0 || !IsCased(s[i - 1])))
  {
    TitleFrom(s, false)
  }

  /** A single lower-case word gets its first letter capitalised and nothing
      else changed: "scatter".title() is "Scatter". */
  lemma TitleOfLowerWord(w: string)
    requires |w| >= 1 && forall i :: 0 <= i < |w| ==> IsLower(w[i])
    ensures Title(w) == [UpperChar(w[0])] + w[1..]
  {
    var r := Title(w);
    var e := [UpperChar(w[0])] + w[1..];
    forall i | 0 <= i < |w|
      ensures r[i] == e[i]
    {
      if i > 0 {
        assert IsCased(w[i - 1]);
      }
      SameLetter(r[i], e[i]);
    }
  }
}

=== FILE: wrappers.dfy ===
/** Python's "a value or `None`" and the handlers' "a result or an error
    response", as two small datatypes. */
module Wrappers {

  /** A value that may be missing: a query argument, a dropdown selection,
      a dictionary lookup. */
  datatype Option<+T> = None | Some(value: T) {

    /** The value, or `default` when there is none: `dict.get(key, default)`. */
    function GetOr(default: T): T {
      match this
      case Some(v) => v
      case None => default
    }
  }

  /** The outcome of a handler: what it computed, or the error it answers
      with. */
  datatype Result<+R, +E> = Success(value: R) | Failure(error: E)
}
